=== FILE: README.md ===
# Conversation store and send cycle of a browser chat client

A Dafny model of the non-UI core of a single-page chat client for a hosted
chat-completion API. The client exists twice in the repository: a plain-DOM
version (`script.js`) and a React version (`src/`). Both keep the same
state in local storage under four keys: the API key, the model, the chat
history as a JSON array, and a version tag. Both build one completion
request per user message.

The model covers:

- store initialisation: the version stamp, key and model loading with their
  fallbacks, healing of deprecated models, and history loading;
- the history operations: append, clear, rollback and the API view;
- request construction and response handling;
- the send, save-settings and new-chat handlers of both front ends.

Local storage is a record of four slots (`Storage.Store`). Every operation
returns the new in-memory session, the new store and the list of storage
calls it made. So "no write" is a claim about that list, not only about the
resulting store. JSON is abstracted away: the history slot records what
parsing the stored blob yields (`Missing`, `Stored(messages)` or
`Corrupt`). The HTTP exchange is an input `Outcome`:
`Ok(content) | NotOk(errorMessage) | TransportFail`. Clock readings and
`window.confirm` are inputs too.

Modules follow the program:

- `Config`: the `CONFIG` constants;
- `Text`: ECMAScript `trim`;
- `Storage`: the store, the shared version check, history load and setters;
- `Completion`: the payload and the response handling;
- `ChatState`, `ApiService`, `ChatApp`: script.js;
- `ChatHook`, `ApiHook`, `App`: src/hooks/useChatState.js,
  src/hooks/useAPIService.js and src/App.jsx.

The central invariant is `Reloads(session, store)`: a relaunch on `store`
reproduces `session`. For script.js it also means the relaunch writes
nothing. For React it means the remount leaves the store unchanged; the
remount may still re-save a non-empty history. Every store operation and
every handler of each front end preserves this invariant for the outcomes
`Outcome` represents, except where the contract names the condition under
which it does not.

Where the two front ends differ, each is modelled as written:

- script.js trims the message and the settings key. React trims the message
  only to test for blankness: it records and sends the text as typed, and it
  does not trim the key.
- A missing key loads as `''` in script.js. In React it loads as the
  build-time default key.
- On a failed request script.js pops the user turn and saves the history
  again. React keeps the orphan user turn: its own comment at
  src/App.jsx:76-77 leaves the rollback unimplemented. The model follows
  the code, so the two front ends disagree on what a failed send persists.
- script.js's `sendMessage` ignores its argument. It sends
  `getMessagesForAPI()`, which already ends with the new user turn. React's
  hook builds the same list from the history and the new message.
  `App.FrontEndsAgreeOnTrimmedInput` proves that script.js and the corrected
  React handler (see Findings) send equal requests when the message needs no
  trimming. The React handler as written sends no request at all.
- script.js persists the user turn before it sends the request. In React the
  request goes out first: the save effect only runs after the handler yields
  at its `await`, by which time `fetch` has been called. `Turn` records how
  many storage calls preceded the request.

## Model

| member | source | states |
|---|---|---|
| Config.DefaultModelIsCurrent | script.js:10-17 | the default model is not in the deprecated list, so healing to it is final |
| Text.Trim | script.js:526 | the trimmed text is empty exactly when the input is all ECMAScript whitespace; otherwise it neither starts nor ends with whitespace; and it is the input with a whitespace-only prefix and a whitespace-only suffix removed, as the `.trim()` calls at script.js:300, script.js:526 and src/App.jsx:57 do |
| Storage.OrElse | script.js:44-45 | JavaScript `getItem(k) or fallback` semantics: an absent entry and a stored empty string both give the fallback; any other stored string is returned as is |
| Storage.LoadHistory | script.js:95-103 | loading the history never fails: an absent key and an unparseable blob both give the empty history, and a stored array gives exactly its messages (the same function is src/hooks/useChatState.js:87-95) |
| Storage.SaveThenLoad | script.js:87-103 | the assumption the JSON abstraction makes, true by construction of the history slot: a saved history loads back as exactly the saved messages, and the key is then present |
| Storage.RemovedOrCorruptLoadsEmpty | script.js:95-108 | a removed history and an unparseable blob both load as the empty conversation |
| Storage.CheckAndMigrate | script.js:57-64 | the store afterwards carries the current version and differs from before in that field only; the version is written exactly when the stored tag differed; the only storage call it can make is that one version write, so no other key is written |
| Storage.SaveApiKey | script.js:66-69 | the key is set in memory and in storage unconditionally; the one storage call is that key write |
| Storage.SaveModel | script.js:71-74 | the model is set in memory and in storage unconditionally, with no check against the deprecated list; the one storage call is that model write |
| Completion.Project | src/hooks/useAPIService.js:31-34 | one API message per history message, in order, carrying its role and content |
| Completion.ProjectIgnoresTimestamps | src/hooks/useAPIService.js:31-34 | histories that differ only in timestamps (or other fields) produce the same payload |
| Completion.ForApi | src/hooks/useChatState.js:129-137 | the API view has one more element than the history: the system prompt first, then message i at position i+1 as (role, content) |
| Completion.ForApiAppend | script.js:537-545 | appending a turn to the history appends its (role, content) to the API view, so the request ends with the new user turn |
| Completion.Settle | src/hooks/useAPIService.js:52-58 | a request is always recorded; an ok response's content is the reply verbatim; a non-ok response fails with its error message, or the fixed fallback when that is absent or empty; a network failure fails |
| Completion.Notice | script.js:432-458 | the error text a failure carries into the notification: the fixed no-key message for a missing key, the rejection message for a non-ok response, and none for the two browser `TypeError`s, whose text is not fixed |
| ChatState.Init | script.js:40-55 | after construction the stored version is current and was written iff it differed; the model is never deprecated; a missing, empty or deprecated stored model gives the default model, a deprecated one is also written back, and the model is written in no other case; a missing key gives `''`; the history is what loads from storage; every storage call is a version or model write, so key and history are never written |
| ChatState.InitIdempotent | script.js:40-64 | constructing again on the store the first construction left loads the same session and makes no storage call, so a healed model stays healed |
| ChatState.AddMessage | script.js:76-85 | exactly one `{role, content, timestamp}` is appended at the end, earlier messages are unchanged, and the persisted history then equals the in-memory one |
| ChatState.SaveChatHistory | script.js:87-93 | the persisted history becomes the in-memory sequence and nothing else in the store changes |
| ChatState.PopAndSave | script.js:554-556 | the rollback drops the last message (none from an empty history) and persists what remains |
| ChatState.ClearHistory | script.js:105-108 | messages become empty and the history key is removed rather than written as an empty array: the one storage call is the removal |
| ChatState.GetMessagesForApi | script.js:110-118 | length is the history length plus one, element 0 is the system prompt, and element i+1 is (role, content) of message i |
| ChatState.AddThenPopRestores | script.js:554-556 | appending and then rolling back restores the session exactly, and the persisted history becomes the pre-send messages |
| ChatState.RollbackMaterialisesEmptyHistory | script.js:555-556 | when the history key was absent, the rollback leaves a stored empty array there; it loads the same as before |
| ChatState.ClearThenReloadIsEmpty | script.js:95-108 | after clearing, the history key is absent and a relaunch loads an empty conversation |
| ChatState.ReloadsAfterSavingHistory | script.js:87-103 | persisting the in-memory history keeps the session equal to what a relaunch loads, with no write on relaunch |
| ChatState.OperationsPreserveReloads | script.js:66-108 | append, rollback, clear and saving a key keep the session equal to what a relaunch loads; saving a model does so iff the model is non-empty and not deprecated |
| ApiService.Send | script.js:432-458 | an empty key fails with no request; otherwise exactly one request is made, carrying the key, the session's model, `getMessagesForAPI()` and 1024 max tokens; the reply is the ok content verbatim, or a failure carrying the error message or the fallback |
| ApiService.SendNotice | script.js:432-458 | a keyless send notifies the fixed no-key message; a non-ok response always notifies a non-empty message, the endpoint's own when it gave a non-empty one |
| ChatApp.SaveSettings | script.js:510-523 | a blank key (after trimming) changes nothing and writes nothing; otherwise the trimmed key and the model are saved in memory and storage |
| ChatApp.HandleNewChat | script.js:491-500 | when the history is non-empty and the user confirms, messages become empty, the history key is removed and that removal is the only storage call; otherwise session and store are unchanged and nothing is written |
| ChatApp.NewChatPreservesReloads | script.js:491-500 | starting a new chat, confirmed or not, keeps the session equal to what a relaunch loads |
| ChatApp.Settled | script.js:547-556 | after the request a reply is appended and persisted; a failure pops the tentative turn and persists; the failure is reported; none of these storage calls precedes the request |
| ChatApp.Cycle | script.js:536-556 | exactly one storage call precedes the request, and it persists the history with the user turn appended; the request is the system prompt, the prior history and the new user turn; success appends user then assistant; failure restores the session and persists the pre-send history |
| ChatApp.HandleSendMessage | script.js:525-562 | blank input changes nothing and sends nothing; a missing key opens settings and changes nothing; otherwise one request, preceded by exactly one storage call that persists the history with the trimmed user turn; success grows the history by exactly the user and assistant turns; failure restores the in-memory session and persists the pre-send messages (a previously absent or corrupt slot then holds them as a stored array) |
| ChatApp.SendPreservesReloads | script.js:543-556 | for every outcome `Outcome` represents, the session after a send is what a relaunch loads, so no orphan user turn is persisted |
| ChatApp.SaveSettingsPreservesReloads | script.js:518-519 | saving settings with a current model keeps the session equal to what a relaunch loads |
| ChatApp.HelloExample | script.js:536-549 | from an empty store with a key, sending "Hello" with a reply leaves exactly the user turn then the assistant turn, persisted |
| ChatHook.Persist | src/hooks/useChatState.js:73-77 | the save effect writes the history iff it is non-empty, and otherwise leaves the store untouched |
| ChatHook.Init | src/hooks/useChatState.js:48-70 | the version is current and written iff it differed; the key is the stored one if non-empty, else the build-time default; the model is never deprecated, a missing, empty or deprecated stored model gives the default, and the model is written iff the loaded value was deprecated, so a missing model causes no write; the history is loaded and re-saved iff non-empty |
| ChatHook.InitIdempotent | src/hooks/useChatState.js:48-85 | a second mount loads the same session, leaves the store unchanged and writes neither version nor model |
| ChatHook.AddMessage | src/hooks/useChatState.js:115-122 | exactly one message is appended at the end, earlier ones are preserved, and the save effect persists the new history |
| ChatHook.ClearHistory | src/hooks/useChatState.js:124-127 | messages become empty, the key is removed, and the following save effect writes nothing, so the removal is the one storage call |
| ChatHook.ClearStaysAbsent | src/hooks/useChatState.js:124-127 | after clearing, a remount keeps the history key absent and loads an empty conversation |
| ChatHook.ReloadsAfterSavingHistory | src/hooks/useChatState.js:73-77 | a persisted non-empty history, or a removed one with an empty session, keeps the session equal to what a remount loads |
| ChatHook.OperationsPreserveReloads | src/hooks/useChatState.js:105-127 | append and clear keep the session equal to what a remount loads; saving a key does so iff the key is non-empty or the default key is empty; saving a model does so iff it is non-empty and not deprecated |
| ApiHook.SendMessage | src/hooks/useAPIService.js:23-59 | an empty key fails with no request; an undefined history throws before any request; otherwise the request carries the key, the model argument, 1024 max tokens and history length plus two messages: the system prompt, each history message as (role, content) in order, and the new user message last; the reply is taken as in `Completion.Settle` |
| ApiHook.PayloadExample | src/hooks/useAPIService.js:29-36 | history user A, assistant B and new message C send system, (user, A), (assistant, B), (user, C) in that order |
| App.HandleSaveSettings | src/App.jsx:36-45 | an empty key saves nothing; otherwise both key and model are saved in memory and storage |
| App.SaveSettingsPreservesReloads | src/App.jsx:36-45 | saving settings with a current model keeps the session equal to what a remount loads |
| App.HandleNewChat | src/App.jsx:47-54 | when messages are non-empty and the user confirms, messages become empty, the history key is removed and that removal is the only storage call; otherwise session and store are unchanged and nothing is written |
| App.NewChatPreservesReloads | src/App.jsx:47-54 | starting a new chat, confirmed or not, keeps the session equal to what a remount loads |
| App.SendWith | src/App.jsx:56-81 | a whitespace-only message changes nothing; a missing key opens settings and adds nothing; otherwise the untrimmed user turn is appended and persisted, with no storage call before a request that is sent, a reply is appended after it, and a failure keeps the user turn |
| App.HandleSendMessageAsWritten | src/App.jsx:71 | with a key and a non-blank message, the call as written never makes a request and always fails on the undefined history |
| App.AsWrittenNeverSends | src/App.jsx:66-78 | with a key and a non-blank message, whatever the endpoint would answer, no request is made and the user turn stays in memory and storage with no reply |
| App.HandleSendMessage | src/App.jsx:56-81 | the intended handler: the request is the system prompt, the prior history and the untrimmed message, sent before any storage call; success appends user then assistant; a failure other than the key or history errors keeps exactly one extra user turn, persisted |
| App.SendWithPreservesReloads | src/App.jsx:55-78 | whatever history the handler passes to `sendMessage`, every outcome leaves a session that a remount loads, including the stranded user turn |
| App.AsWrittenPreservesReloads | src/App.jsx:66-78 | the handler as written, which never sends, still leaves a session that a remount loads: its orphan user turn is persisted |
| App.SendPreservesReloads | src/App.jsx:73-78 | for every outcome `Outcome` represents, even a failure with its orphan user turn, the session after a send is what a remount loads |
| App.FrontEndsAgreeOnTrimmedInput | src/App.jsx:66-72 | for a message that needs no trimming, script.js and the corrected React handler send the same request and, on success, record the same conversation |
| App.FrontEndsDifferOnPadding | src/App.jsx:57-66 | for input " hi" the React handler records " hi" while the plain-DOM handler sends "hi" |

## Findings

| source | as written | input that shows it | evidently intended | confidence | as-written member | corrected member |
|---|---|---|---|---|---|---|
| src/App.jsx:71 | `sendMessage(message)` passes one argument, but the hook's `sendMessage(userMessage, currentMessages)` maps over `currentMessages`, which is then `undefined` and throws before `fetch` | any non-blank message while an API key is set | `sendMessage(message, messages)`, passing the conversation before the new turn, as the hook's payload construction expects | not executed; high | App.HandleSendMessageAsWritten (with App.AsWrittenNeverSends) | App.HandleSendMessage |

## Left out

- Rendering and UI state are not modelled: `UIController`, the JSX components, modal visibility, notifications, the typing indicator, focus, scrolling and textarea resizing. The send handlers report only whether settings were opened and which failure occurred. The notification texts are left out.
- The contact-form relay is not modelled. It is a pass-through POST to a third-party form endpoint and shares no state with the store.
- `fetch`, the HTTP headers and `JSON.stringify`/`JSON.parse` are abstracted. A request is the body's record plus the bearer credential. Saving and then loading a history is assumed to round-trip its messages.
- A history blob that parses to something other than a message array is not represented in the history slot.
- A non-ok response whose body is not JSON, and an ok response without `choices[0].message`, are not represented in `Outcome`. In the source both throw inside `sendMessage` and the handler treats them like any other failure.
- An ok response whose `choices[0].message.content` is absent or null is not represented in `Outcome`. script.js returns it without error and appends it as the assistant turn (script.js:548). Formatting it for display then throws (script.js:346, called from 549). The catch then pops the assistant turn, not the user turn, and saves the orphan user turn (script.js:555-556). React appends the turn without content (src/App.jsx:72), and the throw happens later, during rendering. The claims that no orphan user turn is persisted are limited to the outcomes `Outcome` represents.
- `temperature: 0.7` is a float and is not part of `Request`.
- Storage calls are modelled as always succeeding. The source swallows a failed history save in a logging-only catch, and a failed key, model or version write would throw.
- `new Date().toISOString()` is replaced by timestamp inputs. No ordering between timestamps is claimed, because nothing in the code enforces one.
- React's scheduling is flattened to one save effect after each state change. Not modelled: batching, StrictMode double effects, and a second send while one is in flight (the UI disables input for that).
- Interleaving with a send in flight is not modelled, in either front end. `ChatApp.Cycle`, `ChatApp.HandleSendMessage` and `App.SendWith` treat a send as one step. During the `await`, script.js disables only the input and the send button (script.js:540, 389-392): New Chat and Settings stay usable. React's New Chat button also stays enabled (src/components/Header.jsx:31). If a new chat is confirmed during the await at script.js:545, line 548 appends the reply to the cleared history and saves `[assistant]`. On failure, lines 555-556 pop from the cleared history and save `[]`.
- Regex markdown formatting, locale time formatting and `console` logging are not modelled.
- The plain-DOM `ChatApp.initialize`/`loadChatHistory` only render the loaded state and show a notice, so they are not modelled.
- The React hook's `getMessagesForAPI` is never called: src/App.jsx passes it to `useAPIService`, which takes it as a parameter and ignores it. It is modelled by the same `Completion.ForApi` as script.js's copy.

=== FILE: api_hook.dfy ===
/** The `useAPIService` hook of src/hooks/useAPIService.js. Unlike the
    plain-DOM client it assembles the payload itself from the history the
    caller passes in and the new user message. `currentMessages` is explicit;
    `None` stands for a caller that leaves it `undefined`. */
module ApiHook {
  import opened Storage
  import opened Completion
  import Config

  /** `sendMessage(userMessage, currentMessages)`: refuses before any request
      without a key; `.map` on an undefined history throws before `fetch`;
      otherwise posts system prompt, projected history and the new user turn. */
  function SendMessage(apiKey: string, model: string, userMessage: string, currentMessages: Option<seq<Message>>,
                       outcome: Outcome): (e: Exchange)
    ensures apiKey == "" ==> e == Exchange(None, Failed(NoApiKey))
    ensures apiKey != "" && currentMessages.None? ==> e == Exchange(None, Failed(UndefinedHistory))
    ensures apiKey != "" && currentMessages.Some? ==>
              var ms := currentMessages.value;
              && e.request.Some?
              && e.request.value.credential == apiKey
              && e.request.value.model == model
              && e.request.value.maxTokens == Config.MaxTokens
              && |e.request.value.messages| == |ms| + 2
              && e.request.value.messages[0] == SystemMessage
              && (forall i | 0 <= i < |ms| :: e.request.value.messages[i + 1] == ApiMessage(ms[i].role, ms[i].content))
              && e.request.value.messages[|ms| + 1] == ApiMessage(User, userMessage)
    ensures e.request.Some? ==> (e.reply.Replied? <==> outcome.Ok?)
    ensures e.request.Some? && outcome.Ok? ==> e.reply.content == outcome.content
    ensures e.request.Some? && outcome.NotOk? ==>
              e.reply == Failed(Rejected(OrElse(outcome.errorMessage, Config.FallbackErrorMessage)))
    ensures e.request.Some? && outcome.TransportFail? ==> e.reply == Failed(NetworkDown)
  {
    if apiKey == "" then
      Exchange(None, Failed(NoApiKey))
    else
      match currentMessages
      case None => Exchange(None, Failed(UndefinedHistory))
      case Some(ms) =>
        Settle(Request(apiKey, model, ForApi(ms) + [ApiMessage(User, userMessage)], Config.MaxTokens), outcome)
  }

  /** The payload example: history user "A", assistant "B" and new message
      "C" send system, (user, A), (assistant, B), (user, C) in that order,
      whatever the timestamps. */
  lemma PayloadExample(key: string, model: string, t1: string, t2: string, outcome: Outcome)
    requires key != ""
    ensures var history := [Message(User, "A", t1), Message(Assistant, "B", t2)];
            SendMessage(key, model, "C", Some(history), outcome).request.value.messages
            == [SystemMessage, ApiMessage(User, "A"), ApiMessage(Assistant, "B"), ApiMessage(User, "C")]
  {
  }
}

=== FILE: api_service.dfy ===
/** The `APIService` class of script.js. Its `sendMessage` ignores its
    argument: the payload is the store's `getMessagesForAPI()`, which already
    holds the new user turn. */
module ApiService {
  import opened Storage
  import opened Completion
  import Config
  import ChatState

  /** `sendMessage`: refuses before any request without a key; otherwise
      posts the session's model and its API view and settles the outcome. */
  function Send(st: Session, outcome: Outcome): (e: Exchange)
    ensures st.apiKey == "" ==> e == Exchange(None, Failed(NoApiKey))
    ensures st.apiKey != "" ==>
              e.request == Some(Request(st.apiKey, st.model, ChatState.GetMessagesForApi(st), Config.MaxTokens))
    ensures st.apiKey != "" ==> (e.reply.Replied? <==> outcome.Ok?)
    ensures st.apiKey != "" && outcome.Ok? ==> e.reply.content == outcome.content
    ensures st.apiKey != "" && outcome.NotOk? ==>
              e.reply == Failed(Rejected(OrElse(outcome.errorMessage, Config.FallbackErrorMessage)))
    ensures st.apiKey != "" && outcome.TransportFail? ==> e.reply == Failed(NetworkDown)
  {
    if st.apiKey == "" then
      Exchange(None, Failed(NoApiKey))
    else
      Settle(Request(st.apiKey, st.model, ChatState.GetMessagesForApi(st), Config.MaxTokens), outcome)
  }

  /** Every failure `sendMessage` throws itself reports a non-empty message:
      the no-key text without a key, and the endpoint's message or the
      fallback on a non-ok response. */
  lemma SendNotice(st: Session, outcome: Outcome)
    ensures st.apiKey == "" ==> Notice(Send(st, outcome).reply.failure) == Some(Config.NoApiKeyMessage)
    ensures st.apiKey != "" && outcome.NotOk? ==>
              var m := Notice(Send(st, outcome).reply.failure);
              m.Some? && m.value != "" && (outcome.errorMessage.Some? && outcome.errorMessage.value != "" ==>
                                          m.value == outcome.errorMessage.value)
  {
  }
}

=== FILE: app.dfy ===
/** The control flow of src/App.jsx: saving settings, starting a new chat
    and the send cycle. Notifications, the typing indicator and rendering are
    not modelled; `window.confirm` is a boolean input and the two clock
    readings are timestamp inputs.

    The send handler calls `sendMessage(message)` with one argument, while
    the hook's `sendMessage` takes `(userMessage, currentMessages)`; the
    history it maps over is then `undefined` and the call throws before any
    request. `HandleSendMessageAsWritten` models that call;
    `HandleSendMessage` is the evidently intended one, which passes the
    conversation as it stood before the new turn. Neither rolls the user
    turn back on failure: the handler's own comment leaves that undone. */
module App {
  import opened Storage
  import opened Completion
  import Config
  import Text
  import ChatHook
  import ApiHook
  import ChatApp

  /** `handleSaveSettings`: an empty key (not trimmed here) saves nothing;
      otherwise key and model are both saved. */
  function HandleSaveSettings(st: Session, s: Store, newKey: string, newModel: string): (r: Step)
    ensures newKey == "" ==> r == Step(st, s, [])
    ensures newKey != "" ==>
              && r.session == st.(apiKey := newKey, model := newModel)
              && r.store == s.(apiKey := Some(newKey), model := Some(newModel))
    ensures r.store == ApplyAll(s, r.writes)
  {
    if newKey == "" then
      Step(st, s, [])
    else
      var k := SaveApiKey(st, s, newKey);
      var m := SaveModel(k.session, k.store, newModel);
      ApplyAllConcat(s, k.writes, m.writes);
      Step(m.session, m.store, k.writes + m.writes)
  }

  /** `handleNewChat`: clears only a non-empty conversation the user
      confirms clearing. */
  function HandleNewChat(st: Session, s: Store, confirmed: bool): (r: Step)
    ensures r.session == (if st.messages != [] && confirmed then st.(messages := []) else st)
    ensures r.store == (if st.messages != [] && confirmed then s.(history := Missing) else s)
    ensures r.writes == (if st.messages != [] && confirmed then [RemoveHistory] else [])
  {
    if st.messages != [] && confirmed then ChatHook.ClearHistory(st, s) else Step(st, s, [])
  }

  /** `handleSendMessage`, with `passed` the second argument its call to
      `sendMessage` supplies. The blank check trims, but the message is
      recorded and sent untrimmed. */
  function SendWith(st: Session, s: Store, message: string, sentAt: string, repliedAt: string, outcome: Outcome,
                    passed: Option<seq<Message>>): (t: Turn)
    ensures t.store == ApplyAll(s, t.writes)
    ensures t.session.apiKey == st.apiKey && t.session.model == st.model
    ensures Text.IsBlank(message) ==> t == Turn(st, s, [], None, 0, false, None)
    ensures !Text.IsBlank(message) && st.apiKey == "" ==> t == Turn(st, s, [], None, 0, true, None)
    ensures !Text.IsBlank(message) && st.apiKey != "" ==>
              && t.request == ApiHook.SendMessage(st.apiKey, st.model, message, passed, outcome).request
              && t.writesBeforeRequest == (if t.request.Some? then 0 else |t.writes|)
              && !t.openSettings
              && |t.session.messages| > |st.messages|
              && t.session.messages[..|st.messages| + 1] == st.messages + [Message(User, message, sentAt)]
              && t.store == s.(history := Stored(t.session.messages))
    ensures !Text.IsBlank(message) && st.apiKey != "" ==>
              match ApiHook.SendMessage(st.apiKey, st.model, message, passed, outcome).reply
              case Replied(content) =>
                t.session.messages == st.messages + [Message(User, message, sentAt), Message(Assistant, content, repliedAt)]
                && t.failure == None
              case Failed(f) =>
                t.session.messages == st.messages + [Message(User, message, sentAt)] && t.failure == Some(f)
  {
    if Text.Trim(message) == [] then
      Turn(st, s, [], None, 0, false, None)
    else if st.apiKey == "" then
      Turn(st, s, [], None, 0, true, None)
    else
      var sent := ChatHook.AddMessage(st, s, User, message, sentAt);
      var e := ApiHook.SendMessage(st.apiKey, st.model, message, passed, outcome);
      assert sent.session.messages == st.messages + [Message(User, message, sentAt)];
      match e.reply
      case Replied(content) =>
        var got := ChatHook.AddMessage(sent.session, sent.store, Assistant, content, repliedAt);
        ApplyAllConcat(s, sent.writes, got.writes);
        Turn(got.session, got.store, sent.writes + got.writes, e.request,
             if e.request.Some? then 0 else |sent.writes + got.writes|, false, None)
      case Failed(f) =>
        Turn(sent.session, sent.store, sent.writes, e.request,
             if e.request.Some? then 0 else |sent.writes|, false, Some(f))
  }

  /** `handleSendMessage` as written: `sendMessage(message)` leaves the
      history argument undefined. */
  function HandleSendMessageAsWritten(st: Session, s: Store, message: string, sentAt: string, repliedAt: string,
                                      outcome: Outcome): (t: Turn)
    ensures !Text.IsBlank(message) && st.apiKey != "" ==>
              t.request == None && t.failure == Some(UndefinedHistory)
  {
    SendWith(st, s, message, sentAt, repliedAt, outcome, None)
  }

  /** The defect: with a key and a non-blank message, no request is ever
      made, whatever the endpoint would have answered, and the user turn
      stays in the conversation and in storage with no reply. */
  lemma AsWrittenNeverSends(st: Session, s: Store, message: string, sentAt: string, repliedAt: string, outcome: Outcome)
    requires !Text.IsBlank(message) && st.apiKey != ""
    ensures var t := HandleSendMessageAsWritten(st, s, message, sentAt, repliedAt, outcome);
            && t.request == None
            && t.failure == Some(UndefinedHistory)
            && t.session.messages == st.messages + [Message(User, message, sentAt)]
            && LoadHistory(t.store.history) == t.session.messages
  {
  }

  /** `handleSendMessage` as intended: the conversation before the new turn
      is passed along. The request is system prompt, history, new message;
      a reply is appended after the user turn; a failure keeps the user turn
      (no rollback). */
  function HandleSendMessage(st: Session, s: Store, message: string, sentAt: string, repliedAt: string,
                             outcome: Outcome): (t: Turn)
    ensures t.store == ApplyAll(s, t.writes)
    ensures Text.IsBlank(message) ==> t == Turn(st, s, [], None, 0, false, None)
    ensures !Text.IsBlank(message) && st.apiKey == "" ==> t == Turn(st, s, [], None, 0, true, None)
    ensures !Text.IsBlank(message) && st.apiKey != "" ==> t.writesBeforeRequest == 0
    ensures !Text.IsBlank(message) && st.apiKey != "" ==>
              t.request == Some(Request(st.apiKey, st.model, ForApi(st.messages) + [ApiMessage(User, message)],
                                        Config.MaxTokens))
    ensures !Text.IsBlank(message) && st.apiKey != "" && outcome.Ok? ==>
              && t.session.messages == st.messages + [Message(User, message, sentAt), Message(Assistant, outcome.content, repliedAt)]
              && t.failure == None
    ensures !Text.IsBlank(message) && st.apiKey != "" && !outcome.Ok? ==>
              && t.session.messages == st.messages + [Message(User, message, sentAt)]
              && t.failure.Some? && t.failure.value != NoApiKey && t.failure.value != UndefinedHistory
    ensures !Text.IsBlank(message) && st.apiKey != "" ==> t.store == s.(history := Stored(t.session.messages))
  {
    var t := SendWith(st, s, message, sentAt, repliedAt, outcome, Some(st.messages));
    assert !Text.IsBlank(message) && st.apiKey != "" ==>
      t.request == Some(Request(st.apiKey, st.model, ForApi(st.messages) + [ApiMessage(User, message)], Config.MaxTokens));
    t
  }

  /** Saving settings keeps the session equal to what a remount loads when
      the chosen model is a current one. */
  lemma SaveSettingsPreservesReloads(st: Session, s: Store, env: Option<string>, newKey: string, newModel: string)
    requires ChatHook.Reloads(st, s, env)
    requires newModel != "" && !Config.IsDeprecated(newModel)
    ensures var r := HandleSaveSettings(st, s, newKey, newModel);
            ChatHook.Reloads(r.session, r.store, env)
  {
    if newKey != "" {
      var k := SaveApiKey(st, s, newKey);
      ChatHook.OperationsPreserveReloads(st, s, env, User, "", "", newKey, newModel);
      ChatHook.OperationsPreserveReloads(k.session, k.store, env, User, "", "", newKey, newModel);
    }
  }

  /** Starting a new chat keeps the session equal to what a remount loads. */
  lemma NewChatPreservesReloads(st: Session, s: Store, env: Option<string>, confirmed: bool)
    requires ChatHook.Reloads(st, s, env)
    ensures var r := HandleNewChat(st, s, confirmed);
            ChatHook.Reloads(r.session, r.store, env)
  {
    ChatHook.OperationsPreserveReloads(st, s, env, User, "", "", "", "");
  }

  /** Whatever history the send call is given, the send handler keeps the
      session equal to what a remount loads, orphan user turn included when
      the request fails or is never made. */
  lemma SendWithPreservesReloads(st: Session, s: Store, env: Option<string>, message: string, sentAt: string,
                                 repliedAt: string, outcome: Outcome, passed: Option<seq<Message>>)
    requires ChatHook.Reloads(st, s, env)
    ensures var t := SendWith(st, s, message, sentAt, repliedAt, outcome, passed);
            ChatHook.Reloads(t.session, t.store, env)
  {
    var t := SendWith(st, s, message, sentAt, repliedAt, outcome, passed);
    if !Text.IsBlank(message) && st.apiKey != "" {
      ChatHook.ReloadsAfterSavingHistory(st, s, env, t.session.messages);
    }
  }

  /** The handler as written keeps the session equal to what a remount
      loads: the user turn it strands is persisted too. */
  lemma AsWrittenPreservesReloads(st: Session, s: Store, env: Option<string>, message: string, sentAt: string,
                                  repliedAt: string, outcome: Outcome)
    requires ChatHook.Reloads(st, s, env)
    ensures var t := HandleSendMessageAsWritten(st, s, message, sentAt, repliedAt, outcome);
            ChatHook.Reloads(t.session, t.store, env)
  {
    SendWithPreservesReloads(st, s, env, message, sentAt, repliedAt, outcome, None);
  }

  /** The intended send keeps the session equal to what a remount loads,
      orphan user turn included when the request fails. */
  lemma SendPreservesReloads(st: Session, s: Store, env: Option<string>, message: string, sentAt: string,
                             repliedAt: string, outcome: Outcome)
    requires ChatHook.Reloads(st, s, env)
    ensures var t := HandleSendMessage(st, s, message, sentAt, repliedAt, outcome);
            ChatHook.Reloads(t.session, t.store, env)
  {
    SendWithPreservesReloads(st, s, env, message, sentAt, repliedAt, outcome, Some(st.messages));
  }

  /** For an already trimmed message the two front ends send the same
      request, and on success record the same conversation. */
  lemma FrontEndsAgreeOnTrimmedInput(st: Session, s: Store, message: string, sentAt: string, repliedAt: string,
                                     outcome: Outcome)
    requires Text.Trim(message) == message
    ensures HandleSendMessage(st, s, message, sentAt, repliedAt, outcome).request
            == ChatApp.HandleSendMessage(st, s, message, sentAt, repliedAt, outcome).request
    ensures outcome.Ok? ==>
              HandleSendMessage(st, s, message, sentAt, repliedAt, outcome).session
              == ChatApp.HandleSendMessage(st, s, message, sentAt, repliedAt, outcome).session
  {
  }

  /** The front ends differ on padded input: the plain-DOM one records the
      trimmed text, this one the text as typed. */
  lemma FrontEndsDifferOnPadding(st: Session, s: Store, sentAt: string, repliedAt: string, outcome: Outcome)
    requires st.apiKey != ""
    ensures HandleSendMessage(st, s, " hi", sentAt, repliedAt, outcome).session.messages[|st.messages|].content == " hi"
    ensures ChatApp.HandleSendMessage(st, s, " hi", sentAt, repliedAt, outcome).request.value.messages[|st.messages| + 1].content == "hi"
  {
    assert Text.LeadingSpaces(" hi") == 1;
    assert Text.LeadingSpaces("hi") == 0;
    assert Text.TrailingSpaces("hi") == 0;
    assert Text.Trim(" hi") == "hi";
  }
}

=== FILE: chat_app.dfy ===
/** The control flow of the `ChatApp` class of script.js: saving settings,
    starting a new chat and the send cycle with rollback on failure. The
    DOM work around them (notifications, typing indicator, input focus) is
    not modelled; `confirm` is a boolean input and the two clock readings are
    timestamp inputs. */
module ChatApp {
  import opened Storage
  import opened Completion
  import Config
  import Text
  import ChatState
  import ApiService

  /** `saveSettings` with the form values; the key is trimmed as
      `UIController.getSettings` does. A blank key saves nothing. */
  function SaveSettings(st: Session, s: Store, keyInput: string, model: string): (r: Step)
    ensures Text.IsBlank(keyInput) ==> r == Step(st, s, [])
    ensures !Text.IsBlank(keyInput) ==>
              && r.session == st.(apiKey := Text.Trim(keyInput), model := model)
              && r.store == s.(apiKey := Some(Text.Trim(keyInput)), model := Some(model))
              && r.session.apiKey != ""
    ensures r.store == ApplyAll(s, r.writes)
  {
    var key := Text.Trim(keyInput);
    if key == "" then
      Step(st, s, [])
    else
      var k := SaveApiKey(st, s, key);
      var m := SaveModel(k.session, k.store, model);
      ApplyAllConcat(s, k.writes, m.writes);
      Step(m.session, m.store, k.writes + m.writes)
  }

  /** `handleNewChat`: clears only a non-empty conversation the user
      confirms clearing. */
  function HandleNewChat(st: Session, s: Store, confirmed: bool): (r: Step)
    ensures r.session == (if st.messages != [] && confirmed then st.(messages := []) else st)
    ensures r.store == (if st.messages != [] && confirmed then s.(history := Missing) else s)
    ensures r.writes == (if st.messages != [] && confirmed then [RemoveHistory] else [])
  {
    if st.messages != [] && confirmed then ChatState.ClearHistory(st, s) else Step(st, s, [])
  }

  /** The user turn `handleSendMessage` records for a typed input. */
  function UserTurn(input: string, sentAt: string): Message {
    Message(User, Text.Trim(input), sentAt)
  }

  /** What follows the request: a reply is appended and persisted; any
      failure pops the tentative user turn and re-saves the history. */
  function Settled(sent: Step, e: Exchange, repliedAt: string): (t: Turn)
    requires sent.session.messages != []
    ensures e.reply.Replied? ==>
              && t.session == sent.session.(messages := sent.session.messages + [Message(Assistant, e.reply.content, repliedAt)])
              && t.store == sent.store.(history := Stored(t.session.messages))
              && t.failure == None
    ensures e.reply.Failed? ==>
              && t.session == sent.session.(messages := sent.session.messages[..|sent.session.messages| - 1])
              && t.store == sent.store.(history := Stored(t.session.messages))
              && t.failure == Some(e.reply.failure)
    ensures t.store == ApplyAll(sent.store, t.writes)
    ensures t.request == e.request && !t.openSettings && t.writesBeforeRequest == 0
  {
    match e.reply
    case Replied(content) =>
      var got := ChatState.AddMessage(sent.session, sent.store, Assistant, content, repliedAt);
      Turn(got.session, got.store, got.writes, e.request, 0, false, None)
    case Failed(f) =>
      var back := ChatState.PopAndSave(sent.session, sent.store);
      Turn(back.session, back.store, back.writes, e.request, 0, false, Some(f))
  }

  /** The send cycle proper once the input is known non-blank: append and
      persist the user turn, send, then settle. */
  function Cycle(st: Session, s: Store, message: string, sentAt: string, repliedAt: string, outcome: Outcome): (t: Turn)
    requires st.apiKey != ""
    ensures t.store == ApplyAll(s, t.writes)
    ensures t.session.apiKey == st.apiKey && t.session.model == st.model && !t.openSettings
    ensures t.request == Some(Request(st.apiKey, st.model, ForApi(st.messages) + [ApiMessage(User, message)], Config.MaxTokens))
    ensures t.writesBeforeRequest == 1 && |t.writes| >= 1 && t.writes[0] == SetHistory(st.messages + [Message(User, message, sentAt)])
    ensures outcome.Ok? ==>
              && t.session.messages == st.messages + [Message(User, message, sentAt), Message(Assistant, outcome.content, repliedAt)]
              && t.store == s.(history := Stored(t.session.messages))
              && t.failure == None
    ensures !outcome.Ok? ==>
              && t.session == st
              && t.store == s.(history := Stored(st.messages))
              && t.failure.Some? && t.failure.value != NoApiKey
  {
    var sent := ChatState.AddMessage(st, s, User, message, sentAt);
    var e := ApiService.Send(sent.session, outcome);
    var t := Settled(sent, e, repliedAt);
    assert sent.session.messages == st.messages + [Message(User, message, sentAt)];
    ForApiAppend(st.messages, Message(User, message, sentAt));
    ApplyAllConcat(s, sent.writes, t.writes);
    ChatState.AddThenPopRestores(st, s, User, message, sentAt);
    t.(writes := sent.writes + t.writes, writesBeforeRequest := |sent.writes|)
  }

  /** `handleSendMessage`. The input is trimmed; a blank one is ignored, a
      missing key opens the settings. Otherwise the user turn is appended
      and persisted before the request; a reply is appended after it, and
      any failure pops the user turn and re-saves the history. */
  function HandleSendMessage(st: Session, s: Store, input: string, sentAt: string, repliedAt: string, outcome: Outcome): (t: Turn)
    ensures t.store == ApplyAll(s, t.writes)
    ensures t.session.apiKey == st.apiKey && t.session.model == st.model
    ensures Text.IsBlank(input) ==> t == Turn(st, s, [], None, 0, false, None)
    ensures !Text.IsBlank(input) && st.apiKey == "" ==> t == Turn(st, s, [], None, 0, true, None)
    ensures !Text.IsBlank(input) && st.apiKey != "" ==>
              && !t.openSettings
              && t.request == Some(Request(st.apiKey, st.model,
                                           ForApi(st.messages) + [ApiMessage(User, Text.Trim(input))],
                                           Config.MaxTokens))
              && t.writesBeforeRequest == 1
              && |t.writes| >= 1
              && t.writes[0] == SetHistory(st.messages + [UserTurn(input, sentAt)])
    ensures !Text.IsBlank(input) && st.apiKey != "" && outcome.Ok? ==>
              && t.session.messages == st.messages + [UserTurn(input, sentAt), Message(Assistant, outcome.content, repliedAt)]
              && t.store == s.(history := Stored(t.session.messages))
              && t.failure == None
    ensures !Text.IsBlank(input) && st.apiKey != "" && !outcome.Ok? ==>
              && t.session == st
              && t.store == s.(history := Stored(st.messages))
              && t.failure.Some? && t.failure.value != NoApiKey
  {
    var message := Text.Trim(input);
    if message == [] then
      Turn(st, s, [], None, 0, false, None)
    else if st.apiKey == "" then
      Turn(st, s, [], None, 0, true, None)
    else
      Cycle(st, s, message, sentAt, repliedAt, outcome)
  }

  /** Whatever the outcome, a send leaves the session equal to what a
      relaunch loads: the persisted history never keeps an orphan user turn
      after a failure. */
  lemma SendPreservesReloads(st: Session, s: Store, input: string, sentAt: string, repliedAt: string, outcome: Outcome)
    requires ChatState.Reloads(st, s)
    ensures var t := HandleSendMessage(st, s, input, sentAt, repliedAt, outcome);
            ChatState.Reloads(t.session, t.store)
  {
    var t := HandleSendMessage(st, s, input, sentAt, repliedAt, outcome);
    if !Text.IsBlank(input) && st.apiKey != "" {
      ChatState.ReloadsAfterSavingHistory(st, s, t.session.messages);
    }
  }

  /** Starting a new chat keeps the session equal to what a relaunch loads. */
  lemma NewChatPreservesReloads(st: Session, s: Store, confirmed: bool)
    requires ChatState.Reloads(st, s)
    ensures var r := HandleNewChat(st, s, confirmed);
            ChatState.Reloads(r.session, r.store)
  {
    ChatState.OperationsPreserveReloads(st, s, User, "", "", "", "");
  }

  /** Saving settings keeps the session equal to what a relaunch loads when
      the chosen model is a current one. */
  lemma SaveSettingsPreservesReloads(st: Session, s: Store, keyInput: string, model: string)
    requires ChatState.Reloads(st, s)
    requires model != "" && !Config.IsDeprecated(model)
    ensures var r := SaveSettings(st, s, keyInput, model);
            ChatState.Reloads(r.session, r.store)
  {
    if !Text.IsBlank(keyInput) {
      var k := SaveApiKey(st, s, Text.Trim(keyInput));
      ChatState.OperationsPreserveReloads(st, s, User, "", "", Text.Trim(keyInput), model);
      ChatState.OperationsPreserveReloads(k.session, k.store, User, "", "", "", model);
    }
  }

  /** The worked example: from an empty store with a key, sending "Hello"
      and receiving a reply leaves exactly the user turn then the assistant
      turn, both persisted. */
  lemma HelloExample(key: string, reply: string, t1: string, t2: string)
    requires key != ""
    ensures var s := Store(Some(key), None, Missing, None);
            var init := ChatState.Init(s);
            var t := HandleSendMessage(init.session, init.store, "Hello", t1, t2, Ok(reply));
            && t.session.messages == [Message(User, "Hello", t1), Message(Assistant, reply, t2)]
            && LoadHistory(t.store.history) == t.session.messages
  {
    var s := Store(Some(key), None, Missing, None);
    var init := ChatState.Init(s);
    assert Text.LeadingSpaces("Hello") == 0;
    assert Text.TrailingSpaces("Hello") == 0;
    assert Text.Trim("Hello") == "Hello";
    assert init.session.messages == [];
  }
}

=== FILE: chat_hook.dfy ===
/** The `useChatState` hook of src/hooks/useChatState.js: the conversation
    store of the component front end. React's scheduling is flattened: each
    state update is followed at once by the save effect it triggers, which
    persists the history only when it is non-empty. */
module ChatHook {
  import opened Storage
  import Config

  /** `CONFIG.DEFAULT_API_KEY`, `import.meta.env.VITE_GROQ_API_KEY || ''`,
      with the build-time variable as a parameter. */
  function DefaultApiKey(env: Option<string>): string {
    OrElse(env, "")
  }

  /** The save effect run after a render of `st`: writes the history only
      when there is one. */
  function Persist(st: Session, s: Store): (r: Step)
    ensures r.session == st
    ensures r.store == ApplyAll(s, r.writes)
    ensures st.messages != [] ==> r.store == s.(history := Stored(st.messages)) && WritesHistory(r.writes)
    ensures st.messages == [] ==> r.store == s && r.writes == []
  {
    if st.messages != [] then
      assert [SetHistory(st.messages)][0].SetHistory?;
      ApplyAllSingle(s, SetHistory(st.messages));
      Commit(st, s, [SetHistory(st.messages)])
    else
      Step(st, s, [])
  }

  /** Mounting: the init effect (version check, key with the environment
      fallback, model with healing written back only when it changed,
      history load), then the save effect on the loaded history. */
  function Init(s: Store, env: Option<string>): (r: Step)
    ensures r.store == ApplyAll(s, r.writes)
    ensures s.model.Some? && (s.model.value == "" || Config.IsDeprecated(s.model.value)) ==>
              r.session.model == Config.DefaultModel
    ensures r.store.version == Some(Config.Version)
    ensures WritesVersion(r.writes) <==> s.version != Some(Config.Version)
    ensures WritesModel(r.writes) <==> Config.IsDeprecated(OrElse(s.model, Config.DefaultModel))
    ensures WritesHistory(r.writes) <==> LoadHistory(s.history) != []
    ensures !Config.IsDeprecated(r.session.model)
    ensures s.model.None? ==> r.session.model == Config.DefaultModel && !WritesModel(r.writes)
    ensures s.model.Some? && s.model.value != "" && !Config.IsDeprecated(s.model.value) ==>
              r.session.model == s.model.value
    ensures r.store.model == (if WritesModel(r.writes) then Some(Config.DefaultModel) else s.model)
    ensures s.apiKey.Some? && s.apiKey.value != "" ==> r.session.apiKey == s.apiKey.value
    ensures s.apiKey.None? || s.apiKey.value == "" ==> r.session.apiKey == DefaultApiKey(env)
    ensures r.session.messages == LoadHistory(s.history)
    ensures r.store.apiKey == s.apiKey
    ensures r.store.history == (if r.session.messages == [] then s.history else Stored(r.session.messages))
  {
    var migrate := CheckAndMigrate(s);
    var savedModel := OrElse(s.model, Config.DefaultModel);
    var finalModel := if Config.IsDeprecated(savedModel) then Config.DefaultModel else savedModel;
    var heal := if finalModel != savedModel then [SetModel(finalModel)] else [];
    var loaded := Session(OrElse(s.apiKey, DefaultApiKey(env)), finalModel, LoadHistory(s.history));
    var effect := Persist(loaded, ApplyAll(s, migrate + heal));
    ApplyAllConcat(s, migrate, heal);
    ApplyAllSingle(ApplyAll(s, migrate), SetModel(finalModel));
    ApplyAllConcat(s, migrate + heal, effect.writes);
    var ws := migrate + heal + effect.writes;
    assert forall i | 0 <= i < |ws| ::
      ws[i] == if i < |migrate| then migrate[i]
               else if i < |migrate| + |heal| then heal[i - |migrate|]
               else effect.writes[i - |migrate| - |heal|];
    assert heal != [] ==> ws[|migrate|].SetModel?;
    assert effect.writes != [] ==> ws[|migrate| + |heal|].SetHistory?;
    Step(loaded, effect.store, ws)
  }

  /** A remount on `s` reproduces `st` and leaves the store as it is. */
  predicate Reloads(st: Session, s: Store, env: Option<string>) {
    Init(s, env).session == st && Init(s, env).store == s
  }

  /** Mounting is idempotent: a second mount loads the same session, leaves
      the store unchanged and writes neither the version nor the model (it
      only re-saves a non-empty history). */
  lemma InitIdempotent(s: Store, env: Option<string>)
    ensures Reloads(Init(s, env).session, Init(s, env).store, env)
    ensures !WritesVersion(Init(Init(s, env).store, env).writes)
    ensures !WritesModel(Init(Init(s, env).store, env).writes)
  {
    Config.DefaultModelIsCurrent();
  }

  /** `addMessage`, then the save effect: one message appended at the end
      and the history persisted. */
  function AddMessage(st: Session, s: Store, role: Role, content: string, now: string): (r: Step)
    ensures |r.session.messages| == |st.messages| + 1
    ensures r.session.messages[..|st.messages|] == st.messages
    ensures r.session.messages[|st.messages|] == Message(role, content, now)
    ensures r.session.apiKey == st.apiKey && r.session.model == st.model
    ensures r.store == s.(history := Stored(r.session.messages))
    ensures r.store == ApplyAll(s, r.writes)
  {
    Persist(st.(messages := Append(st.messages, role, content, now)), s)
  }

  /** `clearHistory`: empties the history and removes the key; the save
      effect that follows writes nothing, since the history is empty. */
  function ClearHistory(st: Session, s: Store): (r: Step)
    ensures r.session == st.(messages := [])
    ensures r.store == s.(history := Missing)
    ensures r.store == ApplyAll(s, r.writes)
    ensures !WritesHistory(r.writes)
    ensures r.writes == [RemoveHistory]
  {
    var cleared := st.(messages := []);
    ApplyAllSingle(s, RemoveHistory);
    var effect := Persist(cleared, ApplyAll(s, [RemoveHistory]));
    ApplyAllConcat(s, [RemoveHistory], effect.writes);
    assert [RemoveHistory] + effect.writes == [RemoveHistory];
    Step(cleared, effect.store, [RemoveHistory] + effect.writes)
  }

  /** After clearing, the history key stays absent across a remount, and the
      remount loads an empty conversation. */
  lemma ClearStaysAbsent(st: Session, s: Store, env: Option<string>)
    ensures Init(ClearHistory(st, s).store, env).store.history == Missing
    ensures Init(ClearHistory(st, s).store, env).session.messages == []
  {
  }

  /** Persisting the in-memory history keeps a reloadable session reloadable. */
  lemma ReloadsAfterSavingHistory(st: Session, s: Store, env: Option<string>, ms: seq<Message>)
    requires Reloads(st, s, env)
    ensures ms != [] ==> Reloads(st.(messages := ms), s.(history := Stored(ms)), env)
    ensures Reloads(st.(messages := []), s.(history := Missing), env)
  {
    assert s.version == Some(Config.Version);
    Config.DefaultModelIsCurrent();
  }

  /** Every store operation keeps the session equal to what a remount
      loads; saving a key does so unless an empty key would be replaced by
      the environment's, and saving a model does so exactly when the model
      is non-empty and not deprecated. */
  lemma OperationsPreserveReloads(st: Session, s: Store, env: Option<string>, role: Role, content: string, now: string,
                                  key: string, model: string)
    requires Reloads(st, s, env)
    ensures Reloads(AddMessage(st, s, role, content, now).session, AddMessage(st, s, role, content, now).store, env)
    ensures Reloads(ClearHistory(st, s).session, ClearHistory(st, s).store, env)
    ensures Reloads(SaveApiKey(st, s, key).session, SaveApiKey(st, s, key).store, env)
            <==> key != "" || DefaultApiKey(env) == ""
    ensures Reloads(SaveModel(st, s, model).session, SaveModel(st, s, model).store, env)
            <==> model != "" && !Config.IsDeprecated(model)
  {
    Config.DefaultModelIsCurrent();
    assert s.version == Some(Config.Version);
    var a := AddMessage(st, s, role, content, now);
    ReloadsAfterSavingHistory(st, s, env, a.session.messages);
    ReloadsAfterSavingHistory(st, s, env, []);
  }
}

=== FILE: chat_state.dfy ===
/** The `ChatState` class of script.js: the conversation store of the
    plain-DOM front end. Every mutation is persisted synchronously. */
module ChatState {
  import opened Storage
  import Config
  import Completion

  /** The constructor: version check, key and model load with fallbacks,
      deprecated-model healing (written back), history load. */
  function Init(s: Store): (r: Step)
    ensures r.store == ApplyAll(s, r.writes)
    ensures s.model.Some? && (s.model.value == "" || Config.IsDeprecated(s.model.value)) ==>
              r.session.model == Config.DefaultModel
    ensures r.store.version == Some(Config.Version)
    ensures WritesVersion(r.writes) <==> s.version != Some(Config.Version)
    ensures WritesModel(r.writes) <==> s.model.Some? && Config.IsDeprecated(s.model.value)
    ensures !WritesHistory(r.writes)
    ensures forall i | 0 <= i < |r.writes| :: r.writes[i].SetVersion? || r.writes[i].SetModel?
    ensures !Config.IsDeprecated(r.session.model)
    ensures s.model.None? ==> r.session.model == Config.DefaultModel
    ensures s.model.Some? && s.model.value != "" && !Config.IsDeprecated(s.model.value) ==>
              r.session.model == s.model.value
    ensures r.store.model == (if WritesModel(r.writes) then Some(Config.DefaultModel) else s.model)
    ensures r.session.apiKey == (if s.apiKey.Some? then s.apiKey.value else "")
    ensures r.session.messages == LoadHistory(s.history)
    ensures r.store.apiKey == s.apiKey && r.store.history == s.history
  {
    var migrate := CheckAndMigrate(s);
    var loaded := OrElse(s.model, Config.DefaultModel);
    var heal := if Config.IsDeprecated(loaded) then [SetModel(Config.DefaultModel)] else [];
    var model := if Config.IsDeprecated(loaded) then Config.DefaultModel else loaded;
    ApplyAllConcat(s, migrate, heal);
    ApplyAllSingle(ApplyAll(s, migrate), SetModel(Config.DefaultModel));
    assert heal != [] ==> (migrate + heal)[|migrate|].SetModel?;
    assert forall i | 0 <= i < |migrate + heal| ::
      (migrate + heal)[i] == if i < |migrate| then migrate[i] else heal[i - |migrate|];
    Commit(Session(OrElse(s.apiKey, ""), model, LoadHistory(s.history)), s, migrate + heal)
  }

  /** A relaunch on `s` reproduces `st` and makes no storage call. */
  predicate Reloads(st: Session, s: Store) {
    Init(s) == Step(st, s, [])
  }

  /** Initialisation is idempotent: its corrective writes leave a store on
      which a second initialisation loads the same session and writes
      nothing (in particular a healed model stays healed). */
  lemma InitIdempotent(s: Store)
    ensures Reloads(Init(s).session, Init(s).store)
  {
    Config.DefaultModelIsCurrent();
  }

  /** `addMessage`: appends one message and persists the whole history. */
  function AddMessage(st: Session, s: Store, role: Role, content: string, now: string): (r: Step)
    ensures |r.session.messages| == |st.messages| + 1
    ensures r.session.messages[..|st.messages|] == st.messages
    ensures r.session.messages[|st.messages|] == Message(role, content, now)
    ensures r.session.apiKey == st.apiKey && r.session.model == st.model
    ensures r.store == s.(history := Stored(r.session.messages))
    ensures LoadHistory(r.store.history) == r.session.messages
    ensures r.store == ApplyAll(s, r.writes)
    ensures r.writes == [SetHistory(r.session.messages)]
  {
    SaveChatHistory(st.(messages := Append(st.messages, role, content, now)), s)
  }

  /** `saveChatHistory`: persists the in-memory history as it stands. */
  function SaveChatHistory(st: Session, s: Store): (r: Step)
    ensures r.session == st
    ensures r.store == s.(history := Stored(st.messages))
    ensures r.store == ApplyAll(s, r.writes)
    ensures r.writes == [SetHistory(st.messages)]
  {
    ApplyAllSingle(s, SetHistory(st.messages));
    Commit(st, s, [SetHistory(st.messages)])
  }

  /** `messages.pop()` followed by `saveChatHistory()`, the rollback of a
      failed send. `pop` on an empty array changes nothing. */
  function PopAndSave(st: Session, s: Store): (r: Step)
    ensures st.messages != [] ==> r.session.messages == st.messages[..|st.messages| - 1]
    ensures st.messages == [] ==> r.session.messages == []
    ensures r.session.apiKey == st.apiKey && r.session.model == st.model
    ensures r.store == s.(history := Stored(r.session.messages))
    ensures r.store == ApplyAll(s, r.writes)
  {
    var rest := if st.messages == [] then [] else st.messages[..|st.messages| - 1];
    SaveChatHistory(st.(messages := rest), s)
  }

  /** `clearHistory`: empties the history and removes the key instead of
      writing an empty array. */
  function ClearHistory(st: Session, s: Store): (r: Step)
    ensures r.session == st.(messages := [])
    ensures r.store == s.(history := Missing)
    ensures r.store == ApplyAll(s, r.writes)
    ensures r.writes == [RemoveHistory]
  {
    ApplyAllSingle(s, RemoveHistory);
    Commit(st.(messages := []), s, [RemoveHistory])
  }

  /** `getMessagesForAPI`. */
  function GetMessagesForApi(st: Session): (r: seq<Completion.ApiMessage>)
    ensures |r| == |st.messages| + 1
    ensures r[0] == Completion.SystemMessage
    ensures forall i | 0 <= i < |st.messages| ::
              r[i + 1] == Completion.ApiMessage(st.messages[i].role, st.messages[i].content)
  {
    Completion.ForApi(st.messages)
  }

  /** Appending and then rolling back restores the session exactly and leaves
      a store that reloads it. */
  lemma AddThenPopRestores(st: Session, s: Store, role: Role, content: string, now: string)
    ensures PopAndSave(AddMessage(st, s, role, content, now).session, AddMessage(st, s, role, content, now).store).session == st
    ensures PopAndSave(AddMessage(st, s, role, content, now).session, AddMessage(st, s, role, content, now).store).store
            == s.(history := Stored(st.messages))
  {
    var a := AddMessage(st, s, role, content, now);
    assert a.session.messages[..|a.session.messages| - 1] == st.messages;
  }

  /** The rollback does not restore the raw storage entry: a history that was
      absent comes back as a stored empty array (which loads the same). */
  lemma RollbackMaterialisesEmptyHistory(st: Session, s: Store, content: string, now: string)
    requires st.messages == [] && s.history == Missing
    ensures PopAndSave(AddMessage(st, s, User, content, now).session, AddMessage(st, s, User, content, now).store).store.history
            == Stored([])
    ensures LoadHistory(Stored([])) == LoadHistory(s.history)
  {
    AddThenPopRestores(st, s, User, content, now);
  }

  /** Clearing and relaunching gives an empty conversation, through the
      missing-key path rather than a stored empty array. */
  lemma ClearThenReloadIsEmpty(st: Session, s: Store)
    ensures ClearHistory(st, s).store.history == Missing
    ensures Init(ClearHistory(st, s).store).session.messages == []
  {
  }

  /** Persisting the in-memory history keeps a reloadable session reloadable. */
  lemma ReloadsAfterSavingHistory(st: Session, s: Store, ms: seq<Message>)
    requires Reloads(st, s)
    ensures Reloads(st.(messages := ms), s.(history := Stored(ms)))
  {
    assert s.version == Some(Config.Version);
  }

  /** Every store operation keeps the in-memory session equal to what a
      relaunch would load; saving a model does so exactly when the model is
      non-empty and not deprecated (otherwise a relaunch substitutes the
      default). */
  lemma OperationsPreserveReloads(st: Session, s: Store, role: Role, content: string, now: string, key: string, model: string)
    requires Reloads(st, s)
    ensures Reloads(AddMessage(st, s, role, content, now).session, AddMessage(st, s, role, content, now).store)
    ensures Reloads(PopAndSave(st, s).session, PopAndSave(st, s).store)
    ensures Reloads(ClearHistory(st, s).session, ClearHistory(st, s).store)
    ensures Reloads(SaveApiKey(st, s, key).session, SaveApiKey(st, s, key).store)
    ensures Reloads(SaveModel(st, s, model).session, SaveModel(st, s, model).store)
            <==> model != "" && !Config.IsDeprecated(model)
  {
    Config.DefaultModelIsCurrent();
    assert s.version == Some(Config.Version);
  }
}

=== FILE: completion.dfy ===
/** The request/response exchange with the chat-completion endpoint, shared
    by both front ends. `fetch`, headers and JSON are abstracted: a request is
    the record the body would serialise, and the endpoint's answer is an
    `Outcome` supplied by the caller. */
module Completion {
  import opened Storage
  import Config

  /** A message as sent to the API: timestamps and any other fields dropped. */
  datatype ApiMessage = ApiMessage(role: Role, content: string)

  /** The body of the POST (minus `temperature`), plus the bearer credential
      the `Authorization` header carries. */
  datatype Request = Request(credential: string, model: string, messages: seq<ApiMessage>, maxTokens: nat)

  /** What `fetch` settles to: an ok response carrying
      `choices[0].message.content`, a non-ok response whose body may carry
      `error.message`, or a rejected promise (network failure). */
  datatype Outcome = Ok(content: string) | NotOk(errorMessage: Option<string>) | TransportFail

  /** Why a send failed. `NoApiKey` is the error the client throws without
      a key; `UndefinedHistory` is the TypeError of calling `.map` on
      `undefined`. */
  datatype Failure = NoApiKey | Rejected(message: string) | NetworkDown | UndefinedHistory

  datatype Reply = Replied(content: string) | Failed(failure: Failure)

  /** The `error.message` a failure carries into the error notification.
      The texts of the browser's own `TypeError`s are not fixed, so those
      two failures have none here. */
  function Notice(f: Failure): (m: Option<string>)
    ensures m.Some? <==> f.NoApiKey? || f.Rejected?
    ensures f.NoApiKey? ==> m == Some(Config.NoApiKeyMessage)
    ensures f.Rejected? ==> m == Some(f.message)
  {
    match f
    case NoApiKey => Some(Config.NoApiKeyMessage)
    case Rejected(message) => Some(message)
    case _ => None
  }

  /** The request actually sent, if any, and how the call ended. */
  datatype Exchange = Exchange(request: Option<Request>, reply: Reply)

  /** The result of one send handler: the new session and store, the storage
      calls made, the request sent, how many of those storage calls were made
      before the request went out (all of them when none did), whether the
      settings dialog was opened, and the failure reported to the user. */
  datatype Turn = Turn(session: Session, store: Store, writes: seq<Write>, request: Option<Request>,
                       writesBeforeRequest: nat, openSettings: bool, failure: Option<Failure>)

  const SystemMessage: ApiMessage := ApiMessage(System, Config.SystemPrompt)

  /** `messages.map(msg => ({role: msg.role, content: msg.content}))`. */
  function Project(ms: seq<Message>): (r: seq<ApiMessage>)
    ensures |r| == |ms|
    ensures forall i | 0 <= i < |ms| :: r[i] == ApiMessage(ms[i].role, ms[i].content)
  {
    if ms == [] then [] else [ApiMessage(ms[0].role, ms[0].content)] + Project(ms[1..])
  }

  /** The projection distributes over concatenation. */
  lemma ProjectConcat(a: seq<Message>, b: seq<Message>)
    ensures Project(a + b) == Project(a) + Project(b)
  {
    assert forall i | 0 <= i < |a + b| :: (a + b)[i] == if i < |a| then a[i] else b[i - |a|];
  }

  /** Histories that differ only in timestamps give the same payload. */
  lemma ProjectIgnoresTimestamps(a: seq<Message>, b: seq<Message>)
    requires |a| == |b|
    requires forall i | 0 <= i < |a| :: a[i].role == b[i].role && a[i].content == b[i].content
    ensures Project(a) == Project(b)
  {
  }

  /** `getMessagesForAPI`: the system prompt, then every stored message as
      `(role, content)` in order. */
  function ForApi(ms: seq<Message>): (r: seq<ApiMessage>)
    ensures |r| == |ms| + 1
    ensures r[0] == SystemMessage
    ensures forall i | 0 <= i < |ms| :: r[i + 1] == ApiMessage(ms[i].role, ms[i].content)
  {
    [SystemMessage] + Project(ms)
  }

  /** Appending a message appends its projection to the API view. */
  lemma ForApiAppend(ms: seq<Message>, m: Message)
    ensures ForApi(ms + [m]) == ForApi(ms) + [ApiMessage(m.role, m.content)]
  {
    ProjectConcat(ms, [m]);
    assert Project([m]) == [ApiMessage(m.role, m.content)];
  }

  /** The response handling after `fetch`: an ok response's content is the
      reply verbatim; a non-ok one fails with `error.error?.message`, or the
      fallback when that is absent or empty. */
  function Settle(request: Request, outcome: Outcome): (e: Exchange)
    ensures e.request == Some(request)
    ensures e.reply.Replied? <==> outcome.Ok?
    ensures outcome.Ok? ==> e.reply.content == outcome.content
    ensures outcome.NotOk? ==> e.reply.Failed? && e.reply.failure.Rejected?
    ensures outcome.NotOk? && outcome.errorMessage.Some? && outcome.errorMessage.value != "" ==>
              e.reply.failure.message == outcome.errorMessage.value
    ensures outcome.NotOk? && (outcome.errorMessage.None? || outcome.errorMessage.value == "") ==>
              e.reply.failure.message == Config.FallbackErrorMessage
    ensures outcome.TransportFail? ==> e.reply == Failed(NetworkDown)
  {
    match outcome
    case Ok(content) => Exchange(Some(request), Replied(content))
    case NotOk(message) => Exchange(Some(request), Failed(Rejected(OrElse(message, Config.FallbackErrorMessage))))
    case TransportFail => Exchange(Some(request), Failed(NetworkDown))
  }
}

=== FILE: config.dfy ===
/** Constants of the chat client. Both front ends carry their own identical
    copy: the `CONFIG` object of script.js, the `CONFIG` object of
    src/hooks/useChatState.js and the `SYSTEM_PROMPT` of
    src/hooks/useAPIService.js. They are defined once here. */
module Config {

  /** Version tag stamped into storage under `app_version`. */
  const Version: string := "1.1.0"

  /** Model used when none is stored, and substituted for deprecated ones. */
  const DefaultModel: string := "llama-3.3-70b-versatile"

  /** Model identifiers the backend no longer accepts. */
  const DeprecatedModels: seq<string> :=
    ["mixtral-8x7b-32768", "llama2-70b-4096", "gemma-7b-it", "llama-3.2-90b-vision-preview"]

  predicate IsDeprecated(model: string) {
    model in DeprecatedModels
  }

  /** The `max_tokens` field of every completion request. */
  const MaxTokens: nat := 1024

  /** Message of the error thrown by the completion client without a key. */
  const NoApiKeyMessage: string := "Please set your API key in settings"

  /** Message used when a rejected request carries no error message. */
  const FallbackErrorMessage: string := "Failed to get response from API"

  const SystemPrompt: string :=
    "You are a helpful, friendly, and knowledgeable AI assistant. Your role is to:\n"
    + "\n"
    + "- Provide accurate and helpful information on a wide range of topics\n"
    + "- Be conversational and engaging while maintaining professionalism\n"
    + "- Ask clarifying questions when the user's request is unclear\n"
    + "- Admit when you don't know something rather than making up information\n"
    + "- Break down complex topics into easy-to-understand explanations\n"
    + "- Be concise but thorough in your responses\n"
    + "- Show empathy and understanding in your interactions\n"
    + "\n"
    + "Response Guidelines:\n"
    + "- Keep responses clear and well-structured\n"
    + "- Use examples when explaining concepts\n"
    + "- If asked about sensitive topics, respond thoughtfully and respectfully\n"
    + "- Avoid being preachy or overly formal\n"
    + "- End with a follow-up question if appropriate to keep the conversation flowing\n"
    + "\n"
    + "Tone: Friendly, helpful, and approachable"

  /** The default model is a current one, so substituting it heals for good. */
  lemma DefaultModelIsCurrent()
    ensures !IsDeprecated(DefaultModel)
  {
  }
}

=== FILE: storage.dfy ===
/** The browser's local storage as the chat client uses it: four string keys
    (`groq_api_key`, `groq_model`, `chat_history`, `app_version`), with the
    history key holding a JSON array of messages. JSON is abstracted away: the
    history slot records what parsing the stored blob yields. The operations
    shared verbatim by both front ends (version check and history load) live
    here, as does the session both of them keep in memory. */
module Storage {
  import Config

  datatype Option<+T> = None | Some(value: T)

  datatype Role = System | User | Assistant

  /** One turn of the conversation; `timestamp` is the ISO-8601 string the
      caller supplies in place of reading the clock. */
  datatype Message = Message(role: Role, content: string, timestamp: string)

  /** The `chat_history` entry: absent (or empty), a blob that parses to a
      message array, or a blob whose parse throws. */
  datatype HistorySlot = Missing | Stored(messages: seq<Message>) | Corrupt

  datatype Store = Store(apiKey: Option<string>, model: Option<string>, history: HistorySlot, version: Option<string>)

  /** One `setItem` or `removeItem` call. */
  datatype Write =
    | SetApiKey(key: string)
    | SetModel(model: string)
    | SetHistory(messages: seq<Message>)
    | RemoveHistory
    | SetVersion(version: string)

  function Apply(s: Store, w: Write): Store {
    match w
    case SetApiKey(k) => s.(apiKey := Some(k))
    case SetModel(m) => s.(model := Some(m))
    case SetHistory(ms) => s.(history := Stored(ms))
    case RemoveHistory => s.(history := Missing)
    case SetVersion(v) => s.(version := Some(v))
  }

  /** The store after performing `ws` in order. */
  function ApplyAll(s: Store, ws: seq<Write>): Store
    decreases |ws|
  {
    if ws == [] then s else ApplyAll(Apply(s, ws[0]), ws[1..])
  }

  /** Performing two batches of writes is performing their concatenation. */
  lemma {:induction false} ApplyAllConcat(s: Store, a: seq<Write>, b: seq<Write>)
    ensures ApplyAll(s, a + b) == ApplyAll(ApplyAll(s, a), b)
    decreases |a|
  {
    if a == [] {
      assert a + b == b;
    } else {
      assert (a + b)[1..] == a[1..] + b;
      ApplyAllConcat(Apply(s, a[0]), a[1..], b);
    }
  }

  /** A single write is performed as itself. */
  lemma ApplyAllSingle(s: Store, w: Write)
    ensures ApplyAll(s, [w]) == Apply(s, w)
  {
    assert [w][1..] == [];
  }

  predicate WritesModel(ws: seq<Write>) {
    exists i | 0 <= i < |ws| :: ws[i].SetModel?
  }

  predicate WritesVersion(ws: seq<Write>) {
    exists i | 0 <= i < |ws| :: ws[i].SetVersion?
  }

  predicate WritesHistory(ws: seq<Write>) {
    exists i | 0 <= i < |ws| :: ws[i].SetHistory?
  }

  /** `localStorage.getItem(key) || fallback`: an absent entry and an empty
      string both give the fallback. */
  function OrElse(slot: Option<string>, fallback: string): (r: string)
    ensures slot.None? ==> r == fallback
    ensures slot.Some? ==> r == (if slot.value == "" then fallback else slot.value)
  {
    if slot.Some? && slot.value != "" then slot.value else fallback
  }

  /** `loadChatHistory`: never fails; an absent or unparseable blob gives
      the empty history. */
  function LoadHistory(slot: HistorySlot): (ms: seq<Message>)
    ensures slot.Missing? || slot.Corrupt? ==> ms == []
    ensures slot.Stored? ==> ms == slot.messages
  {
    match slot
    case Stored(ms) => ms
    case _ => []
  }

  /** What the history slot assumes of `JSON.stringify` and `JSON.parse`:
      a saved history loads back as the same messages. */
  lemma SaveThenLoad(s: Store, ms: seq<Message>)
    ensures LoadHistory(Apply(s, SetHistory(ms)).history) == ms
    ensures Apply(s, SetHistory(ms)).history != Missing
  {
  }

  /** Removing the history, and a corrupt history, both load as empty. */
  lemma RemovedOrCorruptLoadsEmpty(s: Store)
    ensures LoadHistory(Apply(s, RemoveHistory).history) == []
    ensures LoadHistory(s.(history := Corrupt).history) == []
  {
  }

  /** `checkAndMigrate`: stamps the current version when the stored tag
      differs from it, and touches nothing else. */
  function CheckAndMigrate(s: Store): (ws: seq<Write>)
    ensures ApplyAll(s, ws) == s.(version := Some(Config.Version))
    ensures WritesVersion(ws) <==> s.version != Some(Config.Version)
    ensures !WritesModel(ws) && !WritesHistory(ws)
    ensures |ws| <= 1 && forall i | 0 <= i < |ws| :: ws[i] == SetVersion(Config.Version)
  {
    if s.version != Some(Config.Version) then [SetVersion(Config.Version)] else []
  }

  /** What a front end keeps in memory. */
  datatype Session = Session(apiKey: string, model: string, messages: seq<Message>)

  /** The result of a store operation: the new session, the new store and the
      storage calls made to get there, in order. */
  datatype Step = Step(session: Session, store: Store, writes: seq<Write>)

  /** Perform `ws` on `s` and pair the result with `st`. */
  function Commit(st: Session, s: Store, ws: seq<Write>): Step
  {
    Step(st, ApplyAll(s, ws), ws)
  }

  /** `saveApiKey`: unconditional, no validation. */
  function SaveApiKey(st: Session, s: Store, key: string): (r: Step)
    ensures r.session == st.(apiKey := key)
    ensures r.store == s.(apiKey := Some(key))
    ensures r.store == ApplyAll(s, r.writes)
    ensures !WritesModel(r.writes) && !WritesVersion(r.writes) && !WritesHistory(r.writes)
    ensures r.writes == [SetApiKey(key)]
  {
    ApplyAllSingle(s, SetApiKey(key));
    Commit(st.(apiKey := key), s, [SetApiKey(key)])
  }

  /** `saveModel`: unconditional, no validation. */
  function SaveModel(st: Session, s: Store, model: string): (r: Step)
    ensures r.session == st.(model := model)
    ensures r.store == s.(model := Some(model))
    ensures r.store == ApplyAll(s, r.writes)
    ensures WritesModel(r.writes) && !WritesVersion(r.writes) && !WritesHistory(r.writes)
    ensures r.writes == [SetModel(model)]
  {
    assert [SetModel(model)][0].SetModel?;
    ApplyAllSingle(s, SetModel(model));
    Commit(st.(model := model), s, [SetModel(model)])
  }

  /** `{role, content, timestamp}` appended at the end of the history. */
  function Append(ms: seq<Message>, role: Role, content: string, now: string): (r: seq<Message>)
    ensures |r| == |ms| + 1
    ensures r[..|ms|] == ms
    ensures r[|ms|] == Message(role, content, now)
  {
    ms + [Message(role, content, now)]
  }
}

=== FILE: text.dfy ===
/** `String.prototype.trim` of ECMAScript, which both front ends apply to the
    typed message before deciding whether it is blank. */
module Text {

  /** The WhiteSpace and LineTerminator code points of ECMAScript
      (sections 12.2 and 12.3 of ECMA-262), which `trim` strips. */
  predicate IsSpace(c: char) {
    || c == '\t' || c == '\U{000B}' || c == '\U{000C}' || c == ' '
    || c == '\U{00A0}' || c == '\U{FEFF}' || c == '\U{1680}'
    || ('\U{2000}' <= c <= '\U{200A}')
    || c == '\U{202F}' || c == '\U{205F}' || c == '\U{3000}'
    || c == '\n' || c == '\r' || c == '\U{2028}' || c == '\U{2029}'
  }

  /** Empty or whitespace only: what JavaScript treats as a falsy `trim()`. */
  predicate IsBlank(s: string) {
    forall i | 0 <= i < |s| :: IsSpace(s[i])
  }

  /** Length of the longest all-whitespace prefix. */
  function LeadingSpaces(s: string): (k: nat)
    ensures k <= |s|
    ensures forall i | 0 <= i < k :: IsSpace(s[i])
    ensures k < |s| ==> !IsSpace(s[k])
  {
    if |s| > 0 && IsSpace(s[0]) then 1 + LeadingSpaces(s[1..]) else 0
  }

  /** Length of the longest all-whitespace suffix. */
  function TrailingSpaces(s: string): (k: nat)
    ensures k <= |s|
    ensures forall i | |s| - k <= i < |s| :: IsSpace(s[i])
    ensures k < |s| ==> !IsSpace(s[|s| - 1 - k])
  {
    if |s| > 0 && IsSpace(s[|s| - 1]) then 1 + TrailingSpaces(s[..|s| - 1]) else 0
  }

  /** `s.trim()`: the infix of `s` left once leading and trailing whitespace
      are removed. */
  function Trim(s: string): (r: string)
    ensures |r| <= |s|
    ensures r == [] <==> IsBlank(s)
    ensures r != [] ==> !IsSpace(r[0]) && !IsSpace(r[|r| - 1])
    ensures exists i :: 0 <= i <= |s| - |r| && IsBlank(s[..i]) && s[i..] == r + s[i + |r|..]
                        && IsBlank(s[i + |r|..])
  {
    var a := LeadingSpaces(s);
    var t := s[a..];
    var b := TrailingSpaces(t);
    var r := t[..|t| - b];
    assert IsBlank(s[..a]);
    assert s[a..] == r + s[a + |r|..];
    assert IsBlank(s[a + |r|..]) by {
      assert s[a + |r|..] == t[|t| - b..];
    }
    assert r == [] ==> a == |s|;
    r
  }
}
